=== FILE: README.md ===
# Movie recommender: pagination, ranking and metadata mapping

A Dafny model of the logic inside the Streamlit script `app.py` of a movie
recommendation demo. The script resolves a typed title against a catalog,
ranks the catalog by a precomputed similarity row, and shows the result as a
grid of cards. The grid has 15 cards per page. Each page is fetched in
batches of five, with poster, year and rating from an external metadata
service. A "trending this week" list goes through the same grid.

The model covers three parts.

- **Page cursors and batches** (`Pagination`, `Session`, `Batching`). The
  session's `pages` map goes from list key to page number. Previous and
  Next move it, and a new search resets the "recommend" cursor. A page
  shows the window `titles[page*15 : page*15+15]`. The window is cut into
  batches of five. Each batch writes every fetched card into slot
  `i - row_start`, whatever order the fetches complete in.
- **Ranking** (`Ranking`, `Recommender`). `recommend` resolves the query
  through an abstract resolver and finds the first catalog title that is
  equal to it ignoring case. It sorts `(index, score)` pairs of that title's
  similarity row by score, highest first. Python's sort is stable, so equal
  scores keep ascending index order. It drops the first pair and keeps the
  next 49.
- **Metadata** (`Metadata`, `Fetch`). A pure mapping turns one entry of
  the service's `results` into a card, using placeholder values for missing
  fields. `fetch_movie_details` is a retry loop over a transcript of attempt
  outcomes. `fetch_trending_movies_once` maps every entry of one response,
  or gives an empty list.

`Builtins` holds the Python semantics these rely on: slicing with
out-of-range bounds, `math.ceil` of a quotient, `str.split("-")[0]` and
`str.lower()`. `Wrappers` holds `Option`.

Some consequences of `app.py` as written, which the model follows:

- Equal similarity scores keep ascending catalog order, because
  `sorted(..., reverse=True)` is stable (app.py:124).
  `Ranking.SortedArrangementUnique` shows that this order fixes the result
  completely.
- The query's own title can be recommended when another entry of its row,
  at a lower position, ties with its own score
  (`Recommender.SelfIncludedOnTie`), because `[1:50]` drops the first ranked
  pair whatever its index. `Recommender.SelfExcludedWhenTopRanked` gives a
  sufficient condition for the own title to be left out.
- The cursor is clamped only by the buttons (app.py:238-243), not when a
  page is rendered. Next clamps to `max(0, ceil(L/15) - 1)` and Previous
  clamps to 0. A cursor past the end shows "No more movies" and no
  navigation buttons (`Batching.RenderPage`). For an empty list the last
  page is 0.
- The resolver's answer is checked with `if not movie` (app.py:116), so an
  empty title counts as no match (`Recommender.Anchor`).

## Model

| member | source | states |
|---|---|---|
| Builtins.Slice | app.py:253 | For bounds 0 <= start <= end, the slice has max(0, min(end, len) - start) elements, and element j is element start + j of the list. |
| Builtins.CeilDiv | app.py:242 | The quotient is the least q with q*b >= a: it covers a, and q-1 falls short. |
| Builtins.BeforeFirst | app.py:50 | The result is a prefix of the string and contains no separator. It is either the whole string or stops just before the first separator. |
| Builtins.Lower | app.py:119 | ASCII `str.lower()`: the result has the same length, each character is lowered on its own (A–Z to a–z, all else kept), and no upper-case ASCII letter is left. |
| Pagination.TotalPages | app.py:302 | The page count covers the list, and one page fewer would not. |
| Pagination.MaxPage | app.py:242 | The last reachable page is 0 for an empty list. Otherwise it is the page holding the last title: it starts before the end and reaches the end. |
| Pagination.GoPrev | app.py:238-239 | Previous leaves the cursor non-negative and one lower if it was positive; 0 stays 0. Every other key's cursor is unchanged. |
| Pagination.GoNext | app.py:241-243 | Next never goes past the last page. It goes up by one when short of the last page and lands on the last page otherwise. A non-negative cursor stays non-negative, and other keys are unchanged. |
| Pagination.PageWindow | app.py:250-253 | For a non-negative page, the window has min(15, max(0, L - 15*page)) titles, starting at title 15*page. It is empty exactly when the page starts at or past the end. |
| Pagination.NextShownIffBeforeLast | app.py:312-314 | For a non-negative cursor, the Next button (end < len) is shown exactly when the cursor is below the last page. |
| Pagination.NextShownAdvances | app.py:313-314 | Clicking Next when it is shown moves the cursor up by exactly one. |
| Pagination.PrevUndoesNext | app.py:238-243 | Previous after an advancing Next returns to the original page. |
| Pagination.NextUndoesPrev | app.py:238-243 | Next after a Previous from a page in range returns to the original page. |
| Pagination.TransitionsKeepInRange | app.py:238-243 | Previous and Next keep a cursor in [0, last page] in that range. |
| Pagination.InRangeWindowNonEmpty | app.py:250-257 | An in-range cursor on a non-empty list never reaches the "No more movies" branch. |
| Session.Initial | app.py:235-236 | A new session has exactly the "recommend" and "trending" cursors, both at 0, and no last query. |
| Session.OnQuery | app.py:318-321 | An empty or unchanged query leaves the session as it is. A new non-empty query sets the recommend cursor to 0 and becomes the last query. No other cursor changes. |
| Session.EnsureCursor | app.py:247-248 | Rendering gives the key a cursor equal to its previous `get(key, 0)` value and changes nothing else. |
| Session.StepKeepsValid | app.py:235-248 | Every event keeps all cursors non-negative. |
| Session.RunKeepsValid | app.py:235-248 | Every sequence of events from a valid session keeps all cursors non-negative. |
| Session.TrendingUntouched | app.py:318-332 | Searches, renders (of "trending" too) and clicks on other lists never change the trending cursor; only its own Previous and Next do. |
| Session.ClicksKeepCursorInRange | app.py:238-243 | While a list stays the same, any run of searches, clicks on any list and renders keeps its cursor in [0, last page]. Clicks on other lists leave it alone, and a new search moves the recommend cursor to 0, which is in range. |
| Session.NewQueryStartsOnFirstPage | app.py:318-321 | After a new search, the recommend list shows its first 15 titles. |
| Batching.BatchCount | app.py:260-262 | The number of batches is ceil(total/5): enough for the window, and one fewer would not be. |
| Batching.BatchAt | app.py:265-268 | Batch b starts at 5b and holds 1 to 5 titles inside the window. Every batch but the last holds exactly 5. |
| Batching.BatchesTileWindow | app.py:265-268 | The batches start at 0 and end at the window's end. Each begins where the previous one ends, and none is empty or holds more than 5. |
| Batching.PositionInExactlyOneBatch | app.py:278-283 | Window position i lies in batch i/5 and in no other batch. Its slot i - row_start is in [0, 5). |
| Batching.FillBatch | app.py:270-286 | For any completion order that covers the batch, each slot ends holding the card fetched for its own title. |
| Batching.RenderPage | app.py:245-314 | An empty window gives "No more movies". Otherwise there is one card per window title, in window order. The page indicator shows ceil(L/15) pages. Previous is shown iff page > 0 and Next iff end < L. |
| Ranking.Enumerate | app.py:124 | `enumerate(row)` pairs every position with its score, in ascending position order, with the same length as the row. |
| Ranking.SortDesc | app.py:124 | The result is a permutation of the pairs. It is ordered by score, highest first, with equal scores by ascending index. |
| Ranking.SortedArrangementUnique | app.py:124 | Two permutations of the same pairs, both in that order, are equal. So the stable reverse sort's output is determined. |
| Ranking.Rank | app.py:123-124 | The ranked row holds every (index, score) pair of the row exactly once, sorted in that order. |
| Ranking.RankedLaterScoresNoHigher | app.py:124 | A pair ranked later never has a higher score. |
| Recommender.FindTitle | app.py:119-121 | The result is the first position whose title equals the name ignoring case. None means no title matches (the IndexError branch). |
| Recommender.Anchor | app.py:114-121 | The query has an anchor row exactly when the resolver returns a non-empty title and some catalog title matches it case-insensitively. The anchor is the first such title. |
| Recommender.RecommendIndices | app.py:114-126 | The result is empty without an anchor. Otherwise it has min(49, n-1) distinct catalog positions, in non-increasing score order, with ties by ascending position. |
| Recommender.Recommend | app.py:125-126 | The titles are the catalog titles at the recommended positions, in the same order, at most 49 of them. |
| Recommender.DroppedIsTop | app.py:123-124 | The dropped pair has the highest score in the anchor row and is not returned. |
| Recommender.KeptOutrankRest | app.py:123-124 | The result is a top-49 selection: every position neither returned nor dropped ranks below every returned one. |
| Recommender.KeptAfterFirst | app.py:123-124 | Once the anchor row is known, the result is the positions of its ranking from the second pair to the fiftieth. |
| Recommender.SelfExcludedWhenTopRanked | app.py:124 | If the anchor's own score beats every other entry, ties going to the lower position, the query's own title is not recommended. |
| Recommender.SelfIncludedOnTie | app.py:124 | With tied self-scores, the query's own title is recommended. |
| Recommender.InceptionExample | app.py:114-126 | For a catalog Inception/Interstellar/Inception 2 whose "Inception" row is [100, 70, 95], any query the resolver maps to "Inception" gives ["Inception 2", "Interstellar"]. |
| Metadata.Truthy | app.py:48-50 | A JSON scalar is false exactly when it is null, the empty string or 0; these are the tests `if poster_path` and `if release_date` make. |
| Metadata.Digits | app.py:48 | `str(n)` of a natural number is a non-empty string of decimal digits, "0" for 0 and otherwise with no leading zero, and reading it back as a decimal gives n. |
| Metadata.Text | app.py:48 | The f-string text of a value: "None" for null, the string itself, or for a number its canonical decimal digits, preceded by one "-" exactly when it is negative; `int()` of that text is the number. |
| Metadata.Sentinel | app.py:66-72 | The placeholder card has the requested title, the placeholder poster, "Unknown", "N/A" and "". |
| Metadata.PosterUrl | app.py:47-48 | The poster is the placeholder exactly when poster_path is missing or falsy (null, empty, 0). Otherwise it is the w500 base URL followed by the path. |
| Metadata.Year | app.py:49-50 | A missing or falsy release_date gives "Unknown". A non-empty date gives its prefix up to the first '-'. A non-zero number raises. Every year produced is free of '-'. |
| Metadata.MapMovie | app.py:46-60 | Mapping raises exactly when the year does. Otherwise the title falls back to the default, and the poster is the placeholder exactly when poster_path is falsy, and otherwise the w500 base URL followed by the text of the path. The year has no '-', and the rating and overview fall back to "N/A" and "". |
| Metadata.EmptyEntryIsSentinel | app.py:46-60 | An entry with no fields maps to the placeholder card for the fallback title. |
| Metadata.SentinelOnlyFromBareEntry | app.py:46-60 | A mapped card equals the placeholder only if the entry has no usable poster, rating, overview or other title. |
| Fetch.TryOnce | app.py:28-60 | A raised request is a failed attempt. An empty or missing results list returns the placeholder card. Otherwise the attempt's outcome is the mapping of the first result. |
| Fetch.RetryFrom | app.py:27-65 | The loop stops at the first attempt that returns and reports how many attempts it made. If every attempt raises, it makes all of them and returns the fallback. |
| Fetch.FetchMovieDetails | app.py:26-72 | The result is the card of the first non-failing attempt among the first `retries`, and all earlier attempts failed. If all fail, exactly max(0, retries) attempts are made and the placeholder card is returned. Nothing escapes. |
| Fetch.OnlyAttemptsMadeMatter | app.py:27-65 | The result depends only on the outcomes of the attempts actually made. |
| Fetch.ThreeFailuresGiveSentinel | app.py:26-72 | With the default 3 retries and three failing requests, the placeholder card comes back after 3 attempts. |
| Fetch.MapAll | app.py:84-97 | All entries are mapped, in order and with the same length, exactly when none raises. |
| Fetch.FetchTrending | app.py:76-101 | A failed request or a missing results list gives []. Otherwise every entry is mapped with "Unknown" as the fallback title, in order and with the same length. If any mapping raises, the whole list is []. |

## Left out

- Rendering: Streamlit output, CSS, spinners, the loading text and
  `time.sleep(0.2)`. A page view is a value (`Batching.View`).
- Network I/O: `requests.get`, timeouts, status checks and JSON decoding.
  An attempt is either "raised" or "responded with `results`". A `results`
  value that is neither a list nor missing/null is not modelled. Neither is a
  `results` entry that is not an object.
- Field values: they are JSON scalars (`Null`, string, integer). Nested
  arrays or objects inside a field are not modelled.
- Scores and ratings: floats become integers. NaN and float formatting are
  not modelled.
- Logging and the `time.sleep(delay)` between retries. Neither changes
  any result.
- Concurrency: the `ThreadPoolExecutor` and `as_completed`. Only the
  completion order is kept, as a parameter of `Batching.FillBatch`. Every
  fetch is treated as a function of its title (`fetch` in
  `Batching.RenderPage`).
- `st.cache_data` memoization of both fetch functions. This is framework
  behaviour.
- The once-per-session trending load (app.py:103-104). This is
  framework state. `Fetch.FetchTrending` models one call.
- Loading the catalog and the similarity matrix with `pickle`/`pandas`.
  They are immutable inputs (`Recommender.Catalog`). The index is assumed to
  be positional.
- `difflib.get_close_matches`. It is the uninterpreted `Resolver`
  parameter.
- Building the search link with `urllib.parse.quote` (app.py:285). It is a
  library call.
- Batching.RenderPage: assumes every fetched card's title is a string. A
  `results` entry whose `title` is JSON null or a number makes `quote` raise
  `TypeError` (app.py:285). That ends the render partway: later slots stay
  empty and no navigation buttons appear. The model's one card per window
  title does not cover that case.
- `.strip()` on the search text. `Session.OnQuery` receives the stripped
  query.
- Builtins.Lower: only ASCII letters are lowered. Unicode case mappings,
  including those that change the length, are not modelled.
- Recommender.FindTitle: `str.lower()` is modelled for ASCII letters only.
  Unicode case mappings (including those that change length) are not.
- Pagination.TotalPages: Python computes `ceil(L / 15)` in floating point.
  The model uses exact integer ceiling, which agrees for every list shorter
  than 2^53.

=== FILE: batching.dfy ===
/** Rendering one page of cards: the page window is cut into batches of five,
    each batch shows skeleton slots, fetches its titles concurrently and puts
    every fetched card into the slot of the title that asked for it. */
module Batching {
  import opened Builtins
  import opened Pagination
  import opened Wrappers

  /** Titles fetched together, and worker threads per batch (`batch_size`). */
  const BatchSize: nat := 5

  /** Window positions `lo` (inclusive, `row_start`) to `hi` (exclusive,
      `row_end`) fetched in one batch. */
  datatype Range = Range(lo: nat, hi: nat)

  /** `ceil(total / batch_size)` */
  function BatchCount(total: nat): (n: nat)
    ensures n * BatchSize >= total
    ensures n == 0 || (n - 1) * BatchSize < total
  {
    CeilDiv(total, BatchSize)
  }

  /** Batch number `b` of a window of `total` titles: it holds one to five
      titles, starts where `b` full batches end, and is full unless it is the last. */
  function BatchAt(total: nat, b: nat): (r: Range)
    requires b < BatchCount(total)
    ensures r.lo == b * BatchSize
    ensures r.lo < r.hi <= total
    ensures r.hi - r.lo <= BatchSize
    ensures r.hi < total ==> r.hi - r.lo == BatchSize
  {
    Range(b * BatchSize, Min(b * BatchSize + BatchSize, total))
  }

  function Batches(total: nat): (bs: seq<Range>)
    ensures |bs| == BatchCount(total)
    ensures forall b :: 0 <= b < |bs| ==> bs[b] == BatchAt(total, b)
  {
    seq(BatchCount(total), b requires 0 <= b < BatchCount(total) => BatchAt(total, b))
  }

  /** The batches tile the window: they start at 0, each begins where the
      previous ends, the last ends at the window's end, and none is empty. */
  lemma BatchesTileWindow(total: nat)
    ensures total == 0 <==> Batches(total) == []
    ensures total > 0 ==> Batches(total)[0].lo == 0 && Batches(total)[|Batches(total)| - 1].hi == total
    ensures forall b :: 0 <= b < |Batches(total)| - 1 ==> Batches(total)[b].hi == Batches(total)[b + 1].lo
    ensures forall b :: 0 <= b < |Batches(total)| ==> 1 <= Batches(total)[b].hi - Batches(total)[b].lo <= BatchSize
  {
  }

  /** Every window position belongs to exactly one batch, the one numbered
      `i / 5`, where it takes slot `i - row_start`, inside that batch's slots. */
  lemma PositionInExactlyOneBatch(total: nat, i: nat)
    requires i < total
    ensures i / BatchSize < BatchCount(total)
    ensures BatchAt(total, i / BatchSize).lo <= i < BatchAt(total, i / BatchSize).hi
    ensures 0 <= i - BatchAt(total, i / BatchSize).lo < BatchSize
    ensures forall b :: 0 <= b < BatchCount(total) && BatchAt(total, b).lo <= i < BatchAt(total, b).hi ==> b == i / BatchSize
  {
  }

  /** `order` is a completion order of the batch `r`: every title position of
      the batch completes, and nothing outside the batch does. */
  predicate Covers(order: seq<nat>, r: Range)
  {
    && (forall i :: r.lo <= i < r.hi ==> i in order)
    && (forall k :: 0 <= k < |order| ==> r.lo <= order[k] < r.hi)
  }

  /** One batch: the skeleton slots (`None`) are filled as fetches complete,
      in `order`, each result written to slot `i - row_start` of the title at
      position `i`. Whatever the completion order, every slot ends up holding
      the card of its own title. */
  method FillBatch<T, U>(window: seq<T>, r: Range, order: seq<nat>, fetch: T -> U)
    returns (slots: seq<Option<U>>)
    requires r.lo <= r.hi <= |window|
    requires Covers(order, r)
    ensures |slots| == r.hi - r.lo
    ensures forall j :: 0 <= j < |slots| ==> slots[j] == Some(fetch(window[r.lo + j]))
  {
    slots := seq(r.hi - r.lo, _ => None);
    var k := 0;
    while k < |order|
      invariant 0 <= k <= |order|
      invariant |slots| == r.hi - r.lo
      invariant forall j :: 0 <= j < |slots| ==>
                  slots[j] == if r.lo + j in order[..k] then Some(fetch(window[r.lo + j])) else None
    {
      var i := order[k];
      slots := slots[i - r.lo := Some(fetch(window[i]))];
      assert order[..k + 1] == order[..k] + [i];
      k := k + 1;
    }
    assert order[..k] == order;
  }

  /** What one call of `display_movies_paginated` shows: either the "no more
      movies" notice, or the page's cards with the page indicator and the
      navigation buttons. */
  datatype View<U> =
    | NoMore
    | Cards(cards: seq<U>, page: int, totalPages: nat, prev: bool, next: bool)

  /** Render the window of `page`, batch after batch; `orders[b]` is the order
      in which the fetches of batch `b` complete. */
  method RenderPage<T, U>(titles: seq<T>, page: int, fetch: T -> U, orders: seq<seq<nat>>)
    returns (v: View<U>)
    requires |orders| == BatchCount(|PageWindow(titles, page)|)
    requires forall b :: 0 <= b < |orders| ==> Covers(orders[b], BatchAt(|PageWindow(titles, page)|, b))
    ensures v.NoMore? <==> PageWindow(titles, page) == []
    ensures v.Cards? ==> |v.cards| == |PageWindow(titles, page)|
    ensures v.Cards? ==> forall i :: 0 <= i < |v.cards| ==> v.cards[i] == fetch(PageWindow(titles, page)[i])
    ensures v.Cards? ==> v.page == page && v.totalPages == TotalPages(|titles|)
    ensures v.Cards? ==> (v.prev <==> ShowPrev(page)) && (v.next <==> ShowNext(page, |titles|))
  {
    var w := PageWindow(titles, page);
    if w == [] {
      return NoMore;
    }
    var total := |w|;
    var cards: seq<U> := [];
    var b := 0;
    while b < BatchCount(total)
      invariant 0 <= b <= BatchCount(total)
      invariant |cards| == Min(b * BatchSize, total)
      invariant forall i :: 0 <= i < |cards| ==> cards[i] == fetch(w[i])
    {
      var r := BatchAt(total, b);
      var slots := FillBatch(w, r, orders[b], fetch);
      cards := cards + seq(|slots|, j requires 0 <= j < |slots| => slots[j].value);
      b := b + 1;
    }
    v := Cards(cards, page, TotalPages(|titles|), ShowPrev(page), ShowNext(page, |titles|));
  }
}

=== FILE: builtins.dfy ===
/** The few Python built-ins the application leans on: slicing with
    out-of-range and negative bounds, `math.ceil` of an exact quotient and
    `str.split(sep)[0]`, with the semantics CPython gives them, and
    `str.lower()` restricted to ASCII letters. */
module Builtins {

  function Min(a: int, b: int): int
  {
    if a <= b then a else b
  }

  function Max(a: int, b: int): int
  {
    if a >= b then a else b
  }

  /** How CPython normalises one bound of `s[start:end]` against `len(s) == n`:
      a negative bound counts from the end, and the result is clamped to `[0, n]`. */
  function SliceBound(i: int, n: nat): (k: nat)
    ensures k <= n
    ensures 0 <= i <= n ==> k == i
    ensures i > n ==> k == n
    ensures i < 0 ==> k == Max(0, i + n)
  {
    if i < 0 then Max(0, i + n) else Min(i, n)
  }

  /** Python's `s[start:end]` (step 1). */
  function Slice<T>(s: seq<T>, start: int, end: int): (r: seq<T>)
    ensures |r| <= |s|
    ensures 0 <= start <= end ==> |r| == Max(0, Min(end, |s|) - start)
    ensures 0 <= start <= end ==> forall j :: 0 <= j < |r| ==> r[j] == s[start + j]
  {
    var a := SliceBound(start, |s|);
    var b := SliceBound(end, |s|);
    if a < b then s[a..b] else []
  }

  /** `math.ceil(a / b)` for a non-negative numerator and a positive
      denominator: the least `q` with `q * b >= a`. */
  function CeilDiv(a: nat, b: nat): (q: nat)
    requires b > 0
    ensures q * b >= a
    ensures q == 0 || (q - 1) * b < a
  {
    var q := (a + b - 1) / b;
    assert (a + b - 1) == q * b + (a + b - 1) % b;
    q
  }

  /** `s.split(c)[0]`: the text before the first occurrence of `c`, or all of
      `s` when `c` does not occur. */
  function BeforeFirst(s: string, c: char): (r: string)
    ensures c !in r
    ensures r <= s
    ensures |r| < |s| ==> s[|r|] == c
  {
    if s == [] then []
    else if s[0] == c then []
    else [s[0]] + BeforeFirst(s[1..], c)
  }

  /** Splitting on a separator that does not occur keeps the whole string. */
  lemma BeforeFirstAbsent(s: string, c: char)
    requires c !in s
    ensures BeforeFirst(s, c) == s
  {
  }

  /** `str.lower()` restricted to ASCII: upper-case Latin letters map to
      lower case, every other character is kept. */
  function LowerChar(ch: char): (r: char)
    ensures 'A' <= ch <= 'Z' ==> 'a' <= r <= 'z' && r as int - ch as int == 32
    ensures !('A' <= ch <= 'Z') ==> r == ch
    ensures !('A' <= r <= 'Z')
  {
    if 'A' <= ch <= 'Z' then (ch as int + 32) as char else ch
  }

  /** ASCII `s.lower()`: the same length, each character lowered, no
      upper-case ASCII letter left. */
  function Lower(s: string): (r: string)
    ensures |r| == |s|
    ensures forall i :: 0 <= i < |s| ==> r[i] == LowerChar(s[i])
    ensures forall i :: 0 <= i < |r| ==> !('A' <= r[i] <= 'Z')
  {
    seq(|s|, i requires 0 <= i < |s| => LowerChar(s[i]))
  }
}

=== FILE: fetch.dfy ===
/** `fetch_movie_details` and `fetch_trending_movies_once` with the network
    replaced by what it answered: a transcript of attempt outcomes. */
module Fetch {
  import opened Builtins
  import opened Wrappers
  import opened Metadata

  /** What one request to the metadata service came to: an exception before
      the payload was read (connection error, timeout, non-2xx status,
      undecodable body), or the payload's `results` (`None` when the key is
      absent or null). */
  datatype Attempt = Raised | Responded(results: Option<seq<Movie>>)

  /** `retries` in `fetch_movie_details` when the caller gives none. */
  const DefaultRetries: int := 3

  /** The body of the `try` for one attempt: the card it returns, or `None`
      when it raises (including from the mapping itself). An empty or missing
      `results` returns the placeholder card. */
  function TryOnce(title: string, a: Attempt): (r: Option<Card>)
    ensures a.Raised? ==> r.None?
    ensures a.Responded? && (a.results.None? || a.results.value == []) ==> r == Some(Sentinel(title))
    ensures a.Responded? && a.results.Some? && a.results.value != [] ==> r == MapMovie(a.results.value[0], Str(title))
  {
    match a
    case Raised => None
    case Responded(results) =>
      if results.None? || results.value == [] then Some(Sentinel(title))
      else MapMovie(results.value[0], Str(title))
  }

  predicate Failed(title: string, a: Attempt)
  {
    TryOnce(title, a).None?
  }

  /** The card returned and the number of requests made. */
  datatype Fetched = Fetched(card: Card, attempts: nat)

  /** The retry loop from attempt `k` on, over the per-attempt results
      `tries` (`None` for an attempt that raised) of `n` attempts in all: it
      stops at the first attempt that returns, and falls back to `fallback`
      once all `n` have raised. */
  function RetryFrom(tries: seq<Option<Card>>, n: nat, k: nat, fallback: Card): (r: Fetched)
    requires k <= n <= |tries|
    ensures k <= r.attempts <= n
    ensures forall j :: k <= j < r.attempts - 1 ==> tries[j].None?
    ensures (exists j :: k <= j < n && tries[j].Some?) ==> r.attempts > k && tries[r.attempts - 1] == Some(r.card)
    ensures (forall j :: k <= j < n ==> tries[j].None?) ==> r.attempts == n && r.card == fallback
    decreases n - k
  {
    if k == n then Fetched(fallback, k)
    else if tries[k].Some? then Fetched(tries[k].value, k + 1)
    else RetryFrom(tries, n, k + 1, fallback)
  }

  /** The results of the first `n` attempts of a transcript. */
  function Tries(title: string, outcomes: seq<Attempt>, n: nat): (t: seq<Option<Card>>)
    requires n <= |outcomes|
    ensures |t| == n
    ensures forall j :: 0 <= j < n ==> t[j] == TryOnce(title, outcomes[j])
  {
    seq(n, j requires 0 <= j < n => TryOnce(title, outcomes[j]))
  }

  /** `fetch_movie_details(title, retries)`: the card of the first attempt
      that does not raise, after exactly as many requests as it took; if all
      `retries` attempts raise, the placeholder card after exactly `retries`
      requests. It never raises. */
  function FetchMovieDetails(title: string, retries: int, outcomes: seq<Attempt>): (r: Fetched)
    requires Max(0, retries) <= |outcomes|
    ensures r.attempts <= Max(0, retries)
    ensures forall j :: 0 <= j < r.attempts - 1 ==> Failed(title, outcomes[j])
    ensures (exists j :: 0 <= j < Max(0, retries) && !Failed(title, outcomes[j])) ==>
              r.attempts > 0 && TryOnce(title, outcomes[r.attempts - 1]) == Some(r.card)
    ensures (forall j :: 0 <= j < Max(0, retries) ==> Failed(title, outcomes[j])) ==>
              r.attempts == Max(0, retries) && r.card == Sentinel(title)
  {
    var n := Max(0, retries);
    var tries := Tries(title, outcomes, n);
    var r := RetryFrom(tries, n, 0, Sentinel(title));
    TriesMarkFailures(title, outcomes, n);
    r
  }

  /** An attempt's entry in `Tries` is `None` exactly when that attempt failed. */
  lemma TriesMarkFailures(title: string, outcomes: seq<Attempt>, n: nat)
    requires n <= |outcomes|
    ensures forall j :: 0 <= j < n ==> (Tries(title, outcomes, n)[j].None? <==> Failed(title, outcomes[j]))
  {
    var tries := Tries(title, outcomes, n);
    forall j | 0 <= j < n
      ensures tries[j].None? <==> Failed(title, outcomes[j])
    {
      assert tries[j] == TryOnce(title, outcomes[j]);
    }
  }

  /** Only the answers to requests actually made matter: two transcripts that
      agree on them give the same card and the same number of requests. */
  lemma OnlyAttemptsMadeMatter(title: string, retries: int, o1: seq<Attempt>, o2: seq<Attempt>)
    requires Max(0, retries) <= |o1| && Max(0, retries) <= |o2|
    requires forall j :: 0 <= j < FetchMovieDetails(title, retries, o1).attempts ==> o1[j] == o2[j]
    ensures FetchMovieDetails(title, retries, o1) == FetchMovieDetails(title, retries, o2)
  {
  }

  /** The default three attempts, all raising: the placeholder card after three requests. */
  lemma ThreeFailuresGiveSentinel(title: string)
    ensures FetchMovieDetails(title, DefaultRetries, [Raised, Raised, Raised]) == Fetched(Sentinel(title), 3)
  {
  }

  /** Map every entry, or report that one of them raises. */
  function MapAll(items: seq<Movie>, defaultTitle: Value): (r: Option<seq<Card>>)
    ensures r.Some? <==> forall i :: 0 <= i < |items| ==> MapMovie(items[i], defaultTitle).Some?
    ensures r.Some? ==> |r.value| == |items|
    ensures r.Some? ==> forall i :: 0 <= i < |items| ==> MapMovie(items[i], defaultTitle) == Some(r.value[i])
  {
    if items == [] then Some([])
    else match (MapMovie(items[0], defaultTitle), MapAll(items[1..], defaultTitle))
      case (Some(c), Some(rest)) =>
        Some([c] + rest)
      case _ => None
  }

  /** `fetch_trending_movies_once` given the answer to its single request:
      every entry mapped with "Unknown" as the fallback title, in the order
      received; an empty list when the request raised, the payload had no
      `results`, or mapping any entry raised. */
  function FetchTrending(a: Attempt): (r: seq<Card>)
    ensures a.Raised? || (a.Responded? && a.results.None?) ==> r == []
    ensures a.Responded? && a.results.Some? && MapAll(a.results.value, Str(UnknownTitle)).Some? ==>
              |r| == |a.results.value|
              && forall i :: 0 <= i < |r| ==> MapMovie(a.results.value[i], Str(UnknownTitle)) == Some(r[i])
    ensures a.Responded? && a.results.Some? ==>
              (exists i :: 0 <= i < |a.results.value| && MapMovie(a.results.value[i], Str(UnknownTitle)).None?) ==> r == []
  {
    match a
    case Raised => []
    case Responded(None) => []
    case Responded(Some(items)) =>
      match MapAll(items, Str(UnknownTitle))
      case Some(cards) => cards
      case None => []
  }
}

=== FILE: metadata.dfy ===
/** The mapping from one entry of the metadata service's `results` array to
    the card the grid shows, with the placeholder values used when a field is
    missing. `fetch_movie_details` and `fetch_trending_movies_once` apply the
    same mapping; they differ only in the title used when the entry has none. */
module Metadata {
  import opened Builtins
  import opened Wrappers

  /** A JSON scalar as `response.json()` decodes it. Numbers are integers here. */
  datatype Value = Null | Str(s: string) | Num(n: int)

  /** The JSON scalars Python treats as false. */
  const FalsyScalars: set<Value> := {Null, Str(""), Num(0)}

  /** Python truthiness: `None`, `""` and `0` are false. */
  function Truthy(v: Value): (b: bool)
    ensures b <==> v !in FalsyScalars
  {
    match v
    case Null => false
    case Str(s) => s != ""
    case Num(n) => n != 0
  }

  /** The value of one decimal digit (0 for any other character). */
  function DigitValue(ch: char): nat
  {
    if '0' <= ch <= '9' then ch as int - '0' as int else 0
  }

  /** The number a string of decimal digits denotes, as `int(s)` reads it. */
  function DecValue(s: string): nat
  {
    if s == [] then 0 else 10 * DecValue(s[..|s| - 1]) + DigitValue(s[|s| - 1])
  }

  /** `int(s)` for an optional minus sign followed by decimal digits. */
  function ParseInt(s: string): int
  {
    if s != [] && s[0] == '-' then -(DecValue(s[1..]) as int) else DecValue(s)
  }

  /** `str(n)` for a natural number: its decimal digits, most significant
      first, with no leading zero. Reading them back gives `n`. */
  function Digits(n: nat): (r: string)
    ensures |r| >= 1
    ensures forall i :: 0 <= i < |r| ==> '0' <= r[i] <= '9'
    ensures n > 0 ==> r[0] != '0'
    ensures |r| > 1 ==> r[0] != '0'
    ensures n == 0 ==> r == "0"
    ensures DecValue(r) == n
  {
    if n < 10 then [(48 + n) as char]
    else
      var r := Digits(n / 10) + [(48 + n % 10) as char];
      assert r[..|r| - 1] == Digits(n / 10);
      r
  }

  /** A minus sign before the digits of `m` reads back as `-m`, and every
      character after the sign is a digit. */
  lemma SignedDigits(m: nat)
    ensures var r := "-" + Digits(m);
            r[1..] == Digits(m) && ParseInt(r) == -(m as int)
            && forall i :: 1 <= i < |r| ==> '0' <= r[i] <= '9'
  {
    var r := "-" + Digits(m);
    assert r[1..] == Digits(m);
  }

  /** `str(v)`, which is what an f-string interpolates. A number comes out as
      its canonical digits, after one '-' exactly when it is negative, and
      `int()` of that text is the number. */
  function Text(v: Value): (r: string)
    ensures v.Null? ==> r == "None"
    ensures v.Str? ==> r == v.s
    ensures v.Num? ==> |r| >= 1 && ParseInt(r) == v.n && (r[0] == '-' <==> v.n < 0)
    ensures v.Num? ==> forall i :: 0 <= i < |r| ==> r[i] == '-' || '0' <= r[i] <= '9'
    ensures v.Num? ==> forall i :: 1 <= i < |r| ==> '0' <= r[i] <= '9'
    ensures v.Num? && v.n >= 0 ==> r == Digits(v.n)
    ensures v.Num? && v.n < 0 ==> r == "-" + Digits(-v.n)
  {
    match v
    case Null => "None"
    case Str(s) => s
    case Num(n) =>
      if n < 0 then
        SignedDigits(-n);
        "-" + Digits(-n)
      else Digits(n)
  }

  /** One entry of `results`: the keys it carries and their values. */
  type Movie = map<string, Value>

  /** `movie.get(key, default)` */
  function Get(m: Movie, key: string, default: Value): Value
  {
    if key in m then m[key] else default
  }

  /** The dictionary a card is rendered from. */
  datatype Card = Card(title: Value, poster: string, year: string, rating: Value, overview: Value)

  const PosterBase: string := "https://image.tmdb.org/t/p/w500"
  const NoPoster: string := "https://via.placeholder.com/450x650?text=No+Poster"
  const UnknownYear: string := "Unknown"
  /** The fallback title of a trending entry without one. */
  const UnknownTitle: string := "Unknown"
  const NoRating: Value := Str("N/A")
  const NoOverview: Value := Str("")

  /** The card shown when no metadata could be had for `title`. */
  function Sentinel(title: string): (c: Card)
    ensures c.title == Str(title) && c.poster == NoPoster && c.year == UnknownYear
    ensures c.rating == NoRating && c.overview == NoOverview
  {
    Card(Str(title), NoPoster, UnknownYear, NoRating, NoOverview)
  }

  /** The poster is the placeholder exactly when `poster_path` is missing,
      null or empty; otherwise it is the w500 image URL of that path. */
  function PosterUrl(m: Movie): (url: string)
    ensures url == NoPoster <==> !Truthy(Get(m, "poster_path", Null))
    ensures Truthy(Get(m, "poster_path", Null)) ==> url == PosterBase + Text(m["poster_path"])
  {
    var path := Get(m, "poster_path", Null);
    if Truthy(path) then
      var url := PosterBase + Text(path);
      assert url[8] == 'i' != NoPoster[8];
      url
    else NoPoster
  }

  /** `release_date.split("-")[0] if release_date else "Unknown"`, with
      `release_date = movie.get("release_date", "Unknown")`. `None` stands for
      the `AttributeError` a non-zero number raises, having no `split`. */
  function Year(m: Movie): (y: Option<string>)
    ensures y.None? <==> Get(m, "release_date", Str(UnknownYear)).Num? && Truthy(Get(m, "release_date", Str(UnknownYear)))
    ensures y.Some? ==> '-' !in y.value
    ensures "release_date" !in m ==> y == Some(UnknownYear)
    ensures !Truthy(Get(m, "release_date", Str(UnknownYear))) ==> y == Some(UnknownYear)
    ensures Get(m, "release_date", Null).Str? && Truthy(m["release_date"]) ==>
              y.Some? && y.value <= m["release_date"].s
              && (y.value == m["release_date"].s || m["release_date"].s[|y.value|] == '-')
  {
    var date := Get(m, "release_date", Str(UnknownYear));
    if !Truthy(date) then Some(UnknownYear)
    else match date
      case Str(s) =>
        assert UnknownYear == ['U', 'n', 'k', 'n', 'o', 'w', 'n'];
        BeforeFirstAbsent(UnknownYear, '-');
        Some(BeforeFirst(s, '-'))
      case _ => None
  }

  /** The card for one entry, or `None` where building it raises. The title
      falls back to `defaultTitle` when the entry has none; the rating and
      overview fall back to "N/A" and "". */
  function MapMovie(m: Movie, defaultTitle: Value): (r: Option<Card>)
    ensures r.None? <==> Year(m).None?
    ensures r.Some? ==> r.value.title == Get(m, "title", defaultTitle)
    ensures r.Some? ==> (r.value.poster == NoPoster <==> !Truthy(Get(m, "poster_path", Null)))
    ensures r.Some? && Truthy(Get(m, "poster_path", Null)) ==> r.value.poster == PosterBase + Text(m["poster_path"])
    ensures r.Some? ==> r.value.year == Year(m).value && '-' !in r.value.year
    ensures r.Some? ==> r.value.rating == Get(m, "vote_average", NoRating)
    ensures r.Some? ==> r.value.overview == Get(m, "overview", NoOverview)
  {
    match Year(m)
    case None => None
    case Some(year) =>
      Some(Card(Get(m, "title", defaultTitle), PosterUrl(m), year,
                Get(m, "vote_average", NoRating), Get(m, "overview", NoOverview)))
  }

  /** An entry that carries none of the fields maps to exactly the
      placeholder card for the fallback title. */
  lemma EmptyEntryIsSentinel(title: string)
    ensures MapMovie(map[], Str(title)) == Some(Sentinel(title))
  {
  }

  /** A card built from an entry is the placeholder card only when the entry
      gives no poster, no rating, no overview and no title but the fallback. */
  lemma SentinelOnlyFromBareEntry(m: Movie, title: string)
    requires MapMovie(m, Str(title)) == Some(Sentinel(title))
    ensures !Truthy(Get(m, "poster_path", Null))
    ensures Get(m, "vote_average", NoRating) == NoRating
    ensures Get(m, "overview", NoOverview) == NoOverview
    ensures Get(m, "title", Str(title)) == Str(title)
  {
  }
}

=== FILE: pagination.dfy ===
/** The page cursors of the card grid: a map from a list key ("recommend",
    "trending", ...) to the current page number, the Previous/Next
    transitions on it, and the window of titles a page shows. */
module Pagination {
  import opened Builtins

  /** Titles per page (`PAGE_SIZE`). */
  const PageSize: nat := 15

  /** The session's `pages` dictionary. Values are Python integers. */
  type Cursors = map<string, int>

  /** `pages.get(key, 0)` */
  function Cursor(pages: Cursors, key: string): int
  {
    if key in pages then pages[key] else 0
  }

  /** Number of pages a list of `len` titles spans, `ceil(len / PAGE_SIZE)`. */
  function TotalPages(len: nat): (t: nat)
    ensures t * PageSize >= len
    ensures t == 0 || (t - 1) * PageSize < len
  {
    CeilDiv(len, PageSize)
  }

  /** The last page Next may reach: `max(0, ceil(len / PAGE_SIZE) - 1)`.
      It is the page holding the last title, or page 0 for an empty list. */
  function MaxPage(len: nat): (m: nat)
    ensures len == 0 ==> m == 0
    ensures len > 0 ==> m * PageSize < len <= (m + 1) * PageSize
  {
    Max(0, TotalPages(len) - 1)
  }

  /** `go_prev`: step the cursor of `key` back one page, never below 0. */
  function GoPrev(pages: Cursors, key: string): (r: Cursors)
    ensures r.Keys == pages.Keys + {key}
    ensures forall k :: k in pages && k != key ==> r[k] == pages[k]
    ensures r[key] >= 0
    ensures Cursor(pages, key) > 0 ==> r[key] == Cursor(pages, key) - 1
    ensures Cursor(pages, key) <= 0 ==> r[key] == 0
  {
    pages[key := Max(0, Cursor(pages, key) - 1)]
  }

  /** `go_next`: step the cursor of `key` forward one page, never beyond the
      last page of a list of `titlesLen` titles. */
  function GoNext(pages: Cursors, key: string, titlesLen: nat): (r: Cursors)
    ensures r.Keys == pages.Keys + {key}
    ensures forall k :: k in pages && k != key ==> r[k] == pages[k]
    ensures r[key] <= MaxPage(titlesLen)
    ensures Cursor(pages, key) < MaxPage(titlesLen) ==> r[key] == Cursor(pages, key) + 1
    ensures Cursor(pages, key) >= MaxPage(titlesLen) ==> r[key] == MaxPage(titlesLen)
    ensures Cursor(pages, key) >= 0 ==> r[key] >= 0
  {
    pages[key := Min(Cursor(pages, key) + 1, MaxPage(titlesLen))]
  }

  /** First list position shown on `page` (`start`). */
  function PageStart(page: int): int
  {
    page * PageSize
  }

  /** `titles[start:end]` with `end == start + PAGE_SIZE`: the titles shown on
      `page`. For a non-negative page it is the run of at most 15 titles
      starting at `page * 15`, empty exactly when the page lies past the end. */
  function PageWindow<T>(titles: seq<T>, page: int): (w: seq<T>)
    ensures page >= 0 ==> |w| == Min(PageSize, Max(0, |titles| - PageStart(page)))
    ensures page >= 0 ==> forall j :: 0 <= j < |w| ==> w[j] == titles[PageStart(page) + j]
    ensures page >= 0 ==> (w == [] <==> PageStart(page) >= |titles|)
  {
    Slice(titles, PageStart(page), PageStart(page) + PageSize)
  }

  /** The Previous button is offered on every page but the first. */
  predicate ShowPrev(page: int)
  {
    page > 0
  }

  /** The Next button is offered while titles remain past this page (`end < len(titles)`). */
  predicate ShowNext(page: int, titlesLen: nat)
  {
    PageStart(page) + PageSize < titlesLen
  }

  /** A cursor a list of `len` titles can display: between the first and the last page. */
  predicate InRange(page: int, len: nat)
  {
    0 <= page <= MaxPage(len)
  }

  /** For a reachable cursor, Next is shown exactly when the cursor is short of
      the last page, so a shown Next button always advances by exactly one page. */
  lemma NextShownIffBeforeLast(page: int, len: nat)
    requires page >= 0
    ensures ShowNext(page, len) <==> page < MaxPage(len)
  {
  }

  lemma NextShownAdvances(pages: Cursors, key: string, len: nat)
    requires Cursor(pages, key) >= 0
    requires ShowNext(Cursor(pages, key), len)
    ensures GoNext(pages, key, len)[key] == Cursor(pages, key) + 1
  {
  }

  /** Next followed by Previous returns to the same page when Next advanced;
      Previous followed by Next returns when Previous moved back. */
  lemma PrevUndoesNext(pages: Cursors, key: string, len: nat)
    requires 0 <= Cursor(pages, key) < MaxPage(len)
    ensures GoPrev(GoNext(pages, key, len), key)[key] == Cursor(pages, key)
  {
  }

  lemma NextUndoesPrev(pages: Cursors, key: string, len: nat)
    requires 0 < Cursor(pages, key) <= MaxPage(len)
    ensures GoNext(GoPrev(pages, key), key, len)[key] == Cursor(pages, key)
  {
  }

  /** Both transitions keep a displayable cursor displayable for the same list. */
  lemma TransitionsKeepInRange(pages: Cursors, key: string, len: nat)
    requires InRange(Cursor(pages, key), len)
    ensures InRange(GoPrev(pages, key)[key], len)
    ensures InRange(GoNext(pages, key, len)[key], len)
  {
  }

  /** Every in-range cursor shows a non-empty page, except page 0 of an empty list. */
  lemma InRangeWindowNonEmpty<T>(titles: seq<T>, page: int)
    requires InRange(page, |titles|)
    requires |titles| > 0
    ensures PageWindow(titles, page) != []
  {
  }
}

=== FILE: ranking.dfy ===
/** The ordering step of `recommend`: `sorted(enumerate(row), key=score,
    reverse=True)`. Python's sort is stable even with `reverse=True`, and
    `enumerate` lists positions in ascending order, so the result orders pairs
    by score, highest first, and pairs of equal score by ascending position. */
module Ranking {

  /** One `(index, score)` pair of `enumerate(distances)`. */
  datatype Scored = Scored(index: nat, score: int)

  /** `list(enumerate(row))` */
  function Enumerate(row: seq<int>): (e: seq<Scored>)
    ensures |e| == |row|
    ensures forall i :: 0 <= i < |e| ==> e[i].index == i && e[i].score == row[i]
  {
    seq(|row|, i requires 0 <= i < |row| => Scored(i, row[i]))
  }

  /** `x` comes before `y` in the stable descending sort. */
  predicate Precedes(x: Scored, y: Scored)
  {
    x.score > y.score || (x.score == y.score && x.index < y.index)
  }

  predicate DistinctIndices(s: seq<Scored>)
  {
    forall i, j :: 0 <= i < j < |s| ==> s[i].index != s[j].index
  }

  predicate SortedDesc(s: seq<Scored>)
  {
    forall i, j :: 0 <= i < j < |s| ==> Precedes(s[i], s[j])
  }

  /** Put `x` into its place in a sorted sequence whose indices differ from `x`'s. */
  function Insert(x: Scored, s: seq<Scored>): (r: seq<Scored>)
    requires SortedDesc(s)
    requires forall e :: e in s ==> e.index != x.index
    ensures SortedDesc(r)
    ensures multiset(r) == multiset(s) + multiset{x}
  {
    if s == [] then [x]
    else if Precedes(x, s[0]) then
      PrependSorted(x, s);
      [x] + s
    else
      var t := Insert(x, s[1..]);
      assert s == [s[0]] + s[1..];
      HeadPrecedesInserted(x, s, t);
      assert t[0] in t;
      PrependSorted(s[0], t);
      [s[0]] + t
  }

  /** A pair that precedes the head of a sorted sequence precedes all of it. */
  lemma PrependSorted(h: Scored, s: seq<Scored>)
    requires SortedDesc(s)
    requires s == [] || Precedes(h, s[0])
    ensures SortedDesc([h] + s)
  {
  }

  lemma HeadPrecedesInserted(x: Scored, s: seq<Scored>, t: seq<Scored>)
    requires s != [] && SortedDesc(s)
    requires x.index != s[0].index && !Precedes(x, s[0])
    requires multiset(t) == multiset(s[1..]) + multiset{x}
    ensures forall e :: e in t ==> Precedes(s[0], e)
  {
    forall e | e in t
      ensures Precedes(s[0], e)
    {
      assert e in multiset(t);
      if e != x {
        assert e in multiset(s[1..]);
        var k :| 0 <= k < |s[1..]| && s[1..][k] == e;
        assert s[k + 1] == e;
      }
    }
  }

  /** The stable descending sort by score. */
  function SortDesc(s: seq<Scored>): (r: seq<Scored>)
    requires DistinctIndices(s)
    ensures SortedDesc(r)
    ensures multiset(r) == multiset(s)
  {
    if s == [] then []
    else
      assert DistinctIndices(s[1..]);
      var t := SortDesc(s[1..]);
      HeadIndexFresh(s, t);
      assert s == [s[0]] + s[1..];
      Insert(s[0], t)
  }

  /** The head of a sequence of distinct indices has an index no
      rearrangement of its tail contains. */
  lemma HeadIndexFresh(s: seq<Scored>, t: seq<Scored>)
    requires s != [] && DistinctIndices(s)
    requires multiset(t) == multiset(s[1..])
    ensures forall e :: e in t ==> e.index != s[0].index
  {
    forall e | e in t
      ensures e.index != s[0].index
    {
      assert e in multiset(s[1..]);
      var k :| 0 <= k < |s[1..]| && s[1..][k] == e;
      assert s[k + 1] == e;
    }
  }

  /** The ordering has no ties between different pairs of distinct index, so
      it admits exactly one sorted arrangement of a collection: whatever
      algorithm sorts, the result is the one `SortDesc` computes. */
  lemma {:induction false} SortedArrangementUnique(a: seq<Scored>, b: seq<Scored>)
    requires SortedDesc(a) && SortedDesc(b)
    requires multiset(a) == multiset(b)
    ensures a == b
    decreases |a|
  {
    if a != [] {
      assert |b| == |multiset(b)| == |multiset(a)| == |a|;
      assert a[0] in multiset(b);
      assert b[0] in multiset(a);
      assert a[0] == b[0];
      assert a == [a[0]] + a[1..];
      assert b == [b[0]] + b[1..];
      assert multiset(a[1..]) == multiset(a) - multiset{a[0]};
      assert multiset(b[1..]) == multiset(b) - multiset{b[0]};
      SortedArrangementUnique(a[1..], b[1..]);
    }
  }

  /** `sorted(enumerate(row), key=score, reverse=True)` */
  function Rank(row: seq<int>): (r: seq<Scored>)
    ensures |r| == |row|
    ensures SortedDesc(r)
    ensures forall i :: 0 <= i < |row| ==> Scored(i, row[i]) in r
    ensures forall k :: 0 <= k < |r| ==> r[k].index < |row| && r[k].score == row[r[k].index]
  {
    var e := Enumerate(row);
    var r := SortDesc(e);
    assert |r| == |multiset(r)| == |multiset(e)| == |e|;
    forall i | 0 <= i < |row|
      ensures Scored(i, row[i]) in r
    {
      assert e[i] in multiset(e);
    }
    forall k | 0 <= k < |r|
      ensures r[k].index < |row| && r[k].score == row[r[k].index]
    {
      assert r[k] in multiset(e);
    }
    r
  }

  /** A position that is ranked below another has no higher score. */
  lemma RankedLaterScoresNoHigher(row: seq<int>, p: nat, q: nat)
    requires p < q < |row|
    ensures Rank(row)[p].score >= Rank(row)[q].score
  {
  }
}

=== FILE: recommender.dfy ===
/** `recommend`: resolve the query to a catalog title, find that title's row
    of the similarity matrix, rank the row and return the titles ranked
    second to fiftieth. */
module Recommender {
  import opened Builtins
  import opened Wrappers
  import opened Ranking

  /** The loaded catalog: the `title` column of `movies` under its default
      positional index, and the square `similarity` matrix. */
  datatype Catalog = Catalog(titles: seq<string>, similarity: seq<seq<int>>)

  /** One row and one column of scores per catalog entry. */
  predicate WellFormed(c: Catalog)
  {
    && |c.similarity| == |c.titles|
    && forall i :: 0 <= i < |c.similarity| ==> |c.similarity[i]| == |c.titles|
  }

  /** Entries kept after the top-ranked one is dropped (`[1:50]`). */
  const MaxResults: nat := 49

  /** `youtube_like_search`: `difflib.get_close_matches(query, titles, n=1,
      cutoff=0.5)`, taken as given. */
  type Resolver = string -> Option<string>

  /** Titles equal under `str.lower()`. */
  predicate SameTitle(a: string, b: string)
  {
    Lower(a) == Lower(b)
  }

  function FindFrom(titles: seq<string>, name: string, from: nat): (r: Option<nat>)
    requires from <= |titles|
    ensures r.Some? ==> from <= r.value < |titles| && SameTitle(titles[r.value], name)
    ensures r.Some? ==> forall j :: from <= j < r.value ==> !SameTitle(titles[j], name)
    ensures r.None? ==> forall j :: from <= j < |titles| ==> !SameTitle(titles[j], name)
    decreases |titles| - from
  {
    if from == |titles| then None
    else if SameTitle(titles[from], name) then Some(from)
    else FindFrom(titles, name, from + 1)
  }

  /** `movies[movies["title"].str.lower() == movie.lower()].index[0]`: the
      first position whose title matches case-insensitively, or `None` where
      pandas raises `IndexError`. */
  function FindTitle(titles: seq<string>, name: string): (r: Option<nat>)
    ensures r.Some? ==> r.value < |titles| && SameTitle(titles[r.value], name)
    ensures r.Some? ==> forall j :: 0 <= j < r.value ==> !SameTitle(titles[j], name)
    ensures r.None? <==> forall j :: 0 <= j < |titles| ==> !SameTitle(titles[j], name)
  {
    FindFrom(titles, name, 0)
  }

  /** `movie_index`: the catalog row the query stands for. The resolver's
      answer is checked with `if not movie`, so an empty title counts as no match. */
  function Anchor(c: Catalog, resolve: Resolver, query: string): (r: Option<nat>)
    ensures r.Some? <==>
              && resolve(query).Some? && resolve(query).value != ""
              && exists j :: 0 <= j < |c.titles| && SameTitle(c.titles[j], resolve(query).value)
    ensures r.Some? ==> r.value < |c.titles| && SameTitle(c.titles[r.value], resolve(query).value)
    ensures r.Some? ==> forall j :: 0 <= j < r.value ==> !SameTitle(c.titles[j], resolve(query).value)
  {
    var movie := resolve(query);
    if movie.None? || movie.value == "" then None
    else FindTitle(c.titles, movie.value)
  }

  function Indices(s: seq<Scored>): (r: seq<nat>)
    ensures |r| == |s|
    ensures forall i :: 0 <= i < |s| ==> r[i] == s[i].index
  {
    seq(|s|, i requires 0 <= i < |s| => s[i].index)
  }

  /** The score of entry `k` against the anchor row `m`. */
  function Score(c: Catalog, m: nat, k: nat): int
    requires WellFormed(c) && m < |c.titles| && k < |c.titles|
  {
    c.similarity[m][k]
  }

  /** The positions `recommend` returns, best first. Without an anchor the
      result is empty. Otherwise it has `min(49, n - 1)` distinct catalog
      positions, in non-increasing score order, equal scores by ascending
      position. */
  function RecommendIndices(c: Catalog, resolve: Resolver, query: string): (r: seq<nat>)
    requires WellFormed(c)
    ensures Anchor(c, resolve, query).None? ==> r == []
    ensures Anchor(c, resolve, query).Some? ==> |r| == Min(MaxResults, |c.titles| - 1)
    ensures forall i :: 0 <= i < |r| ==> r[i] < |c.titles|
    ensures forall i, j :: 0 <= i < j < |r| ==> r[i] != r[j]
    ensures Anchor(c, resolve, query).Some? ==>
              var m := Anchor(c, resolve, query).value;
              forall i, j :: 0 <= i < j < |r| ==>
                Score(c, m, r[i]) > Score(c, m, r[j]) || (Score(c, m, r[i]) == Score(c, m, r[j]) && r[i] < r[j])
  {
    match Anchor(c, resolve, query)
    case None => []
    case Some(m) =>
      var ranked := Rank(c.similarity[m]);
      var kept := Slice(ranked, 1, MaxResults + 1);
      assert forall i :: 0 <= i < |kept| ==> kept[i] == ranked[i + 1];
      Indices(kept)
  }

  /** `recommend`: the titles at the recommended positions. */
  function Recommend(c: Catalog, resolve: Resolver, query: string): (titles: seq<string>)
    requires WellFormed(c)
    ensures |titles| == |RecommendIndices(c, resolve, query)|
    ensures |titles| <= MaxResults
    ensures forall i :: 0 <= i < |titles| ==> titles[i] == c.titles[RecommendIndices(c, resolve, query)[i]]
  {
    var r := RecommendIndices(c, resolve, query);
    seq(|r|, i requires 0 <= i < |r| => c.titles[r[i]])
  }

  /** The position `recommend` drops: the first of the ranked row. */
  function Dropped(c: Catalog, resolve: Resolver, query: string): (d: nat)
    requires WellFormed(c)
    requires Anchor(c, resolve, query).Some?
    ensures d < |c.titles|
  {
    Rank(c.similarity[Anchor(c, resolve, query).value])[0].index
  }

  /** The dropped position has the highest score of the anchor row and is
      not returned. */
  lemma DroppedIsTop(c: Catalog, resolve: Resolver, query: string)
    requires WellFormed(c)
    requires Anchor(c, resolve, query).Some?
    ensures Dropped(c, resolve, query) !in RecommendIndices(c, resolve, query)
    ensures var m := Anchor(c, resolve, query).value;
            forall k :: 0 <= k < |c.titles| ==> Score(c, m, Dropped(c, resolve, query)) >= Score(c, m, k)
  {
    var m := Anchor(c, resolve, query).value;
    var ranked := Rank(c.similarity[m]);
    KeptAfterFirst(c, resolve, query, m, ranked);
    forall k | 0 <= k < |c.titles|
      ensures Score(c, m, ranked[0].index) >= Score(c, m, k)
    {
      assert Scored(k, c.similarity[m][k]) in ranked;
    }
  }

  /** The result is a top-49 selection: every position neither returned nor
      dropped is ranked below every returned one. */
  lemma KeptOutrankRest(c: Catalog, resolve: Resolver, query: string)
    requires WellFormed(c)
    requires Anchor(c, resolve, query).Some?
    ensures var m := Anchor(c, resolve, query).value;
            var r := RecommendIndices(c, resolve, query);
            forall k, i :: 0 <= k < |c.titles| && k != Dropped(c, resolve, query) && k !in r && 0 <= i < |r| ==>
              Precedes(Scored(r[i], Score(c, m, r[i])), Scored(k, Score(c, m, k)))
  {
    var m := Anchor(c, resolve, query).value;
    var ranked := Rank(c.similarity[m]);
    var kept := Slice(ranked, 1, MaxResults + 1);
    var r := RecommendIndices(c, resolve, query);
    assert r == Indices(kept);
    forall k, i | 0 <= k < |c.titles| && k != Dropped(c, resolve, query) && k !in r && 0 <= i < |r|
      ensures Precedes(Scored(r[i], Score(c, m, r[i])), Scored(k, Score(c, m, k)))
    {
      forall j | 0 <= j < |kept|
        ensures kept[j].index != k
      {
        assert r[j] in r;
      }
      RankedBelowKept(ranked, kept, Scored(k, Score(c, m, k)));
      assert kept[i] == ranked[i + 1];
    }
  }

  /** In a sorted ranking, a pair that is neither the first nor among the
      `kept` ones right after it comes below every kept pair. */
  lemma RankedBelowKept(ranked: seq<Scored>, kept: seq<Scored>, x: Scored)
    requires SortedDesc(ranked)
    requires |kept| < |ranked| || kept == []
    requires forall j :: 0 <= j < |kept| ==> kept[j] == ranked[j + 1]
    requires x in ranked && x.index != ranked[0].index
    requires forall j :: 0 <= j < |kept| ==> kept[j].index != x.index
    ensures forall j :: 0 <= j < |kept| ==> Precedes(kept[j], x)
  {
    var p :| 0 <= p < |ranked| && ranked[p] == x;
    forall q | 1 <= q <= |kept|
      ensures ranked[q] != x
    {
      assert kept[q - 1] == ranked[q];
    }
  }

  /** When the anchor's own score beats every other entry of its row (ties
      broken toward the lower position), the dropped entry is the anchor
      itself and the query's own title is not recommended. */
  lemma SelfExcludedWhenTopRanked(c: Catalog, resolve: Resolver, query: string)
    requires WellFormed(c)
    requires Anchor(c, resolve, query).Some?
    requires var m := Anchor(c, resolve, query).value;
             forall j :: 0 <= j < |c.titles| && j != m ==> Precedes(Scored(m, Score(c, m, m)), Scored(j, Score(c, m, j)))
    ensures Anchor(c, resolve, query).value !in RecommendIndices(c, resolve, query)
  {
    var m := Anchor(c, resolve, query).value;
    DroppedIsTop(c, resolve, query);
    var d := Dropped(c, resolve, query);
    assert d == m || Precedes(Scored(m, Score(c, m, m)), Scored(d, Score(c, m, d)));
  }

  /** Dropping the first ranked entry is a heuristic: with tied self-scores
      the dropped entry can be another title and the query's own title is
      recommended. Here "B" resolves to row 1, whose scores tie with row 0. */
  lemma SelfIncludedOnTie()
    ensures var c := Catalog(["A", "B"], [[5, 5], [5, 5]]);
            var resolve: Resolver := q => Some("B");
            RecommendIndices(c, resolve, "b") == [1] && Recommend(c, resolve, "b") == ["B"]
  {
  }

  /** A three-title catalog: whatever query the resolver maps to
      "Inception" (row 0), that row ranks "Inception" itself, then
      "Inception 2", then "Interstellar"; the first is dropped. */
  lemma InceptionExample(c: Catalog, resolve: Resolver, query: string)
    requires c.titles == ["Inception", "Interstellar", "Inception 2"]
    requires WellFormed(c) && c.similarity[0] == [100, 70, 95]
    requires resolve(query) == Some("Inception")
    ensures Recommend(c, resolve, query) == ["Inception 2", "Interstellar"]
  {
    AnchorIsFirstTitle(c, resolve, query);
    InceptionRowRanked();
    SecondAndThird(c, resolve, query, [Scored(0, 100), Scored(2, 95), Scored(1, 70)]);
  }

  /** A three-title catalog whose anchor row ranks three pairs recommends the
      titles of the second and the third pair. */
  lemma SecondAndThird(c: Catalog, resolve: Resolver, query: string, ranked: seq<Scored>)
    requires WellFormed(c) && |c.titles| == 3
    requires Anchor(c, resolve, query).Some?
    requires Rank(c.similarity[Anchor(c, resolve, query).value]) == ranked
    ensures |ranked| == 3
    ensures Recommend(c, resolve, query) == [c.titles[ranked[1].index], c.titles[ranked[2].index]]
  {
    KeptAfterFirst(c, resolve, query, Anchor(c, resolve, query).value, ranked);
    assert RecommendIndices(c, resolve, query) == [ranked[1].index, ranked[2].index];
  }

  /** With a known anchor row and its ranking, the result is the indices of
      the ranked pairs from the second to the fiftieth. */
  lemma KeptAfterFirst(c: Catalog, resolve: Resolver, query: string, m: nat, ranked: seq<Scored>)
    requires WellFormed(c)
    requires Anchor(c, resolve, query) == Some(m)
    requires Rank(c.similarity[m]) == ranked
    ensures RecommendIndices(c, resolve, query) == Indices(Slice(ranked, 1, MaxResults + 1))
  {
  }

  /** A resolver answer equal to the first catalog title anchors row 0. */
  lemma AnchorIsFirstTitle(c: Catalog, resolve: Resolver, query: string)
    requires c.titles != [] && resolve(query) == Some(c.titles[0]) && c.titles[0] != ""
    ensures Anchor(c, resolve, query) == Some(0)
  {
  }

  /** The ranking of the row [100, 70, 95]. */
  lemma InceptionRowRanked()
    ensures Rank([100, 70, 95]) == [Scored(0, 100), Scored(2, 95), Scored(1, 70)]
  {
    var r := Rank([100, 70, 95]);
    assert Scored(0, 100) in r && Scored(1, 70) in r && Scored(2, 95) in r;
  }
}

=== FILE: session.dfy ===
/** The session state the script keeps between reruns: the page cursors of
    every list and the last search query, and the events that change them. */
module Session {
  import opened Builtins
  import opened Pagination
  import opened Wrappers

  const RecommendKey: string := "recommend"
  const TrendingKey: string := "trending"

  datatype State = State(pages: Cursors, lastQuery: Option<string>)

  /** The state of a fresh session: both known lists on page 0, no query seen. */
  function Initial(): (s: State)
    ensures s.pages.Keys == {RecommendKey, TrendingKey}
    ensures s.pages[RecommendKey] == 0 && s.pages[TrendingKey] == 0
    ensures s.lastQuery.None?
  {
    State(map[TrendingKey := 0, RecommendKey := 0], None)
  }

  /** The rerun of the script with search text `query` (already stripped):
      a non-empty query that differs from the last one sends the recommend
      list back to page 0 and becomes the last query. */
  function OnQuery(s: State, query: string): (r: State)
    ensures query == "" || s.lastQuery == Some(query) ==> r == s
    ensures query != "" ==> r.lastQuery == Some(query)
    ensures query != "" && s.lastQuery != Some(query) ==>
              r.pages.Keys == s.pages.Keys + {RecommendKey} && r.pages[RecommendKey] == 0
    ensures forall k :: k in s.pages && k != RecommendKey ==> k in r.pages && r.pages[k] == s.pages[k]
  {
    if query != "" && s.lastQuery != Some(query) then
      State(s.pages[RecommendKey := 0], Some(query))
    else
      s
  }

  /** The first thing `display_movies_paginated` does: give `key` a cursor of 0
      if it has none yet. */
  function EnsureCursor(s: State, key: string): (r: State)
    ensures key in r.pages && r.pages[key] == Cursor(s.pages, key)
    ensures r.pages.Keys == s.pages.Keys + {key}
    ensures forall k :: k in s.pages ==> r.pages[k] == s.pages[k]
    ensures r.lastQuery == s.lastQuery
  {
    if key in s.pages then s else s.(pages := s.pages[key := 0])
  }

  /** Everything that changes the session: a Previous or Next click on one
      list (Next carries the length of the list it was shown for), a rerun
      with search text, and the rendering of a list. */
  datatype Event =
    | Prev(key: string)
    | Next(key: string, titlesLen: nat)
    | Query(text: string)
    | Render(key: string)

  function Step(s: State, e: Event): State
  {
    match e
    case Prev(key) => s.(pages := GoPrev(s.pages, key))
    case Next(key, len) => s.(pages := GoNext(s.pages, key, len))
    case Query(text) => OnQuery(s, text)
    case Render(key) => EnsureCursor(s, key)
  }

  function Run(s: State, events: seq<Event>): State
    decreases |events|
  {
    if events == [] then s else Run(Step(s, events[0]), events[1..])
  }

  /** No cursor is ever negative. */
  predicate Valid(s: State)
  {
    forall k :: k in s.pages ==> s.pages[k] >= 0
  }

  lemma InitialValid()
    ensures Valid(Initial())
  {
  }

  lemma StepKeepsValid(s: State, e: Event)
    requires Valid(s)
    ensures Valid(Step(s, e))
  {
  }

  /** Every session the script can reach has only non-negative cursors, so a
      page window is never taken with a negative start. */
  lemma {:induction false} RunKeepsValid(s: State, events: seq<Event>)
    requires Valid(s)
    ensures Valid(Run(s, events))
    decreases |events|
  {
    if events != [] {
      StepKeepsValid(s, events[0]);
      RunKeepsValid(Step(s, events[0]), events[1..]);
    }
  }

  /** No event except a Previous or Next click on "trending" changes the
      trending cursor: no search does, and rendering "trending" keeps the
      cursor it already has. */
  lemma {:induction false} TrendingUntouched(s: State, events: seq<Event>)
    requires TrendingKey in s.pages
    requires forall i :: 0 <= i < |events| ==> (events[i].Prev? || events[i].Next?) ==> events[i].key != TrendingKey
    ensures TrendingKey in Run(s, events).pages
    ensures Run(s, events).pages[TrendingKey] == s.pages[TrendingKey]
    decreases |events|
  {
    if events != [] {
      TrendingUntouched(Step(s, events[0]), events[1..]);
    }
  }

  /** While the list for a key stays the same, every rerun (a search, a
      Previous/Next click on any list, a render) keeps its cursor on a
      displayable page. */
  lemma {:induction false} ClicksKeepCursorInRange(s: State, key: string, len: nat, events: seq<Event>)
    requires InRange(Cursor(s.pages, key), len)
    requires forall i :: 0 <= i < |events| ==> events[i].Next? && events[i].key == key ==> events[i].titlesLen == len
    ensures InRange(Cursor(Run(s, events).pages, key), len)
    decreases |events|
  {
    if events != [] {
      var s' := Step(s, events[0]);
      TransitionsKeepInRange(s.pages, key, len);
      assert InRange(Cursor(s'.pages, key), len);
      ClicksKeepCursorInRange(s', key, len, events[1..]);
    }
  }

  /** A new search always shows the first page of its recommendations. */
  lemma NewQueryStartsOnFirstPage<T>(s: State, query: string, titles: seq<T>)
    requires query != "" && s.lastQuery != Some(query)
    ensures PageWindow(titles, Cursor(OnQuery(s, query).pages, RecommendKey)) == titles[..Min(PageSize, |titles|)]
  {
  }
}

=== FILE: wrappers.dfy ===
/** Python's `None`-or-value, as a datatype. */
module Wrappers {

  datatype Option<T> = None | Some(value: T)
}
